=== FILE: README.md ===
# Listing approval workflow of the RealEstate backend, in Dafny

This project models the core of the RealEstate marketplace backend: the role-gated
workflow that takes a seller's property listing from submission to the buyers' catalogue,
and the authentication decisions in front of it.

The document store is an in-memory map from listing id to listing record. The user
collection is a sequence in natural order, so `findOne` is "the first match". Every listing
handler is a pure function from (caller, request, store) to an `Outcome` (the agent
controller's take no caller): an HTTP status
code, a body and the store afterwards. The auth handlers return their own reply types over
the user collection.

- **Status vocabulary.** `Listings.Status` has one constructor for every literal any handler
  writes or filters on: "Pending Admin Review", "Agent Assigned", "Final Admin Review",
  "Listed", "agent_verification", "agent-pending" and "final_approval". The transitions are
  modelled as the code writes them. Each one overwrites `status` after a role check
  (none in the agent controller's approval) and an existence check, and none looks at the current status.
- **Queues.** Every queue is a status filter (`Listings.WithStatus`) behind a role check,
  or behind no check at all for the buyer and agent routes.
- **Authentication.** `authenticateUser` takes the token from the second space-separated
  segment of the `Authorization` header. The model defines JavaScript's `split` exactly and
  proves it against its inverse, `Join`. Token verification (`jwt.verify`), signing
  (`jwt.sign`), hashing (`bcrypt.hash`) and comparison (`bcrypt.compare`) are opaque
  function parameters.
- **Fresh ids.** New document ids are parameters. An id that is already taken fails the
  save with a duplicate-key error, which the handler's catch answers with 500.

The model exposes what the code does, not the clean pipeline one might expect:

- Final approval lists a listing straight from "Pending Admin Review"
  (`PropertyRoutes.FinalApproveSkipsPipeline`).
- The admin route's approval writes "agent_verification", and the agent controller's
  approval writes "final_approval". No queue reads either value
  (`Workflow.AdminPathStrands`).
- No mounted handler ever writes "agent-pending", so the agent controller's queue is
  empty after any request sequence that starts from an empty store
  (`Workflow.AgentQueueNeverFed`).
- No queue reads "Final Admin Review" either. After an agent's verification, only `/all`
  still shows the listing.

The code has no transition table: every transition applies from any status, and rejection
deletes whatever is there.

## Model

| member | source | states |
|---|---|---|
| Users.FirstMatch | backend/routes/auth.js:50 | a lookup returns the first user in natural order that matches the id or email, and None exactly when no user matches |
| Users.FindOne | backend/middleware/authMiddleware.js:14 | `findById`/`findOne` returns a stored user matching the key, and null exactly when none matches |
| Users.FindByUniqueEmail | backend/routes/auth.js:21-22 | when emails are unique, looking up a user's email returns that user |
| Users.FindByUniqueId | backend/middleware/authMiddleware.js:14 | when ids are unique, looking up a user's id returns that user |
| AuthMiddleware.Split | backend/middleware/authMiddleware.js:6 | `split(" ")` returns at least one segment, and no segment contains the separator; joining the segments gives the header back |
| AuthMiddleware.SplitPlain | backend/middleware/authMiddleware.js:6 | a string without the separator splits into itself alone |
| AuthMiddleware.SplitSegment | backend/middleware/authMiddleware.js:6 | a leading separator-free segment is split off whole |
| AuthMiddleware.SplitJoin | backend/middleware/authMiddleware.js:6 | split undoes join for separator-free segments; with `Split`'s contract, the two are inverses |
| AuthMiddleware.BearerToken | backend/middleware/authMiddleware.js:6-10 | an absent header gives no token; a token is never empty and never contains a space |
| AuthMiddleware.BearerTokenOf | backend/middleware/authMiddleware.js:6 | a header `<scheme> <token>`, optionally followed by more space-separated text, yields exactly that token |
| AuthMiddleware.BearerTokenShape | backend/middleware/authMiddleware.js:6-10 | a header yields a token only if it has that shape: a space-free scheme, one space, the token, then nothing or a space |
| AuthMiddleware.Authenticate | backend/middleware/authMiddleware.js:5-25 | no token gives 401; a token that fails verification gives 401; a verified id with no stored user gives 404; a request is admitted if and only if its token verifies and the token's id is stored, and `next` then runs with that stored user record |
| AuthMiddleware.RoleComesFromStore | backend/middleware/authMiddleware.js:13-21 | the role in the token is ignored: verifiers that agree on the id admit the same stored user record |
| AuthMiddleware.RoleAuth | backend/middleware/authMiddleware.js:28-32 | passes if and only if the user's role is in the list; otherwise 403 |
| AuthMiddleware.RoleAuthEmpty | backend/middleware/authMiddleware.js:29 | an empty role list rejects every user |
| AuthMiddleware.RoleAuthMonotone | backend/middleware/authMiddleware.js:29 | enlarging the role list never turns a pass into a rejection |
| Listings.LiteralRoundTrip | backend/routes/propertyRoutes.js:117 | every status literal in the code reads back as its own status; "Agent Assigned", "agent_verification" and "agent-pending" are distinct values |
| Listings.ParseRoundTrip | backend/routes/adminRoutes.js:34 | every string that reads as a status is exactly that status's literal |
| Listings.WithStatus | backend/routes/propertyRoutes.js:96 | `find({ status })` returns exactly the listings with that status, unchanged |
| Listings.QueuesPartition | backend/routes/propertyRoutes.js:133 | queues for different statuses are disjoint, and a listing with a status is in that status's queue |
| Listings.Overwrite | backend/routes/propertyRoutes.js:112-118 | an unknown id gives 404 with the store unchanged; otherwise 200, and only the status of that one listing changes, to the target |
| Listings.GatedOverwrite | backend/routes/propertyRoutes.js:108-118 | a wrong role gives 403 with the store unchanged, before the lookup; the right role proceeds to the overwrite |
| Listings.OverwriteMovesQueues | backend/routes/propertyRoutes.js:117 | an overwrite removes the listing from its old status queue and adds it to the new one; no other queue entry moves |
| PropertyRoutes.Submit | backend/routes/propertyRoutes.js:22-72 | the upload gate comes first: more than 5 files or an unknown field gives 500. Then a non-seller gets 403 before validation, and a falsy field or a missing images/documents field gives 400. Only a success changes the store: 201 with one new listing pending admin review, owned by the caller as `seller`, location wrapped as `{address}`, file paths in upload order |
| PropertyRoutes.All | backend/routes/propertyRoutes.js:75-87 | admins and agents get the whole store; anyone else gets 403; the store is never changed |
| PropertyRoutes.Pending | backend/routes/propertyRoutes.js:90-102 | admin-only (403 otherwise); returns exactly the "Pending Admin Review" listings; read-only |
| PropertyRoutes.AgentQueue | backend/routes/propertyRoutes.js:127-139 | agent-only (403 otherwise); returns exactly the "Agent Assigned" listings; read-only |
| PropertyRoutes.Approve | backend/routes/propertyRoutes.js:106-124 | a non-admin gets 403 even for an unknown id; an unknown id gets 404; both leave the store unchanged. Otherwise the status becomes "Agent Assigned", whatever it was, and nothing else changes |
| PropertyRoutes.Verify | backend/routes/propertyRoutes.js:142-160 | a non-agent gets 403 and an unknown id 404, both with the store unchanged; otherwise the status becomes "Final Admin Review" and nothing else changes |
| PropertyRoutes.FinalApprove | backend/routes/propertyRoutes.js:163-181 | a non-admin gets 403 and an unknown id 404, both with the store unchanged; otherwise the status becomes "Listed", whatever it was, and nothing else changes |
| PropertyRoutes.ApproveMovesToAgentQueue | backend/routes/propertyRoutes.js:96-133 | approving a pending listing removes it from `/pending` and adds it to `/agent-verification`; every other entry of both queues stays |
| PropertyRoutes.FinalApproveSkipsPipeline | backend/routes/propertyRoutes.js:174 | final approval moves a "Pending Admin Review" listing straight to "Listed" |
| PropertyRoutes.AllCoversQueues | backend/routes/propertyRoutes.js:75-87 | an admin's `/all` holds every listing that any status queue selects, unchanged |
| AdminRoutes.Pending | backend/routes/adminRoutes.js:8-19 | admin-only (403 otherwise); returns exactly the "Pending Admin Review" listings; read-only |
| AdminRoutes.Approve | backend/routes/adminRoutes.js:23-40 | a non-admin gets 403 before the lookup and an unknown id 404, both with the store unchanged. Otherwise the status becomes "agent_verification" and nothing else changes. The listing is then in none of the pending, agent-assigned, agent-pending or listed queues |
| AdminRoutes.Reject | backend/routes/adminRoutes.js:43-54 | a non-admin gets 403 with the store unchanged; an admin gets 200, and the listing with that id is removed whatever its status; every other listing stays; an absent id leaves the store as it was |
| AdminRoutes.RejectIdempotent | backend/routes/adminRoutes.js:49-50 | rejecting twice gives the same answer and store as rejecting once |
| AdminRoutes.PendingRoutesAgree | backend/routes/adminRoutes.js:8-19 | the admin router's `/pending` and the property router's `/pending` give the same answer for every caller and store |
| AgentController.PendingForAgent | backend/controllers/agentController.js:4-11 | returns exactly the "agent-pending" listings, with no caller at all; read-only |
| AgentController.Approve | backend/controllers/agentController.js:15-31 | takes no caller; an unknown id gives 404 with the store unchanged; otherwise the status becomes "final_approval", whatever it was, only that field changes, and the reply is a bare message |
| BuyerRoutes.Catalogue | backend/routes/buyerRoutes.js:7-14 | with no authentication, returns every "Listed" listing and only those; the store is never changed |
| PropertyModel.CreateProperty | backend/models/Property.js:3-45 | a non-seller gets 403 before any check; a falsy field, or images/documents absent or empty, gives 400; a failure never stores anything. Success is 201 with one new listing pending admin review, owned by the caller as `user`, location wrapped, and the uploaded paths kept in count and order |
| PropertyModel.AgreesWithRoute | backend/models/Property.js:8-40 | for uploads the route accepts that hold at least one image and one document, this controller and the mounted route give the same code and store the same listing; only the owner field differs (`user` here, `seller` there) |
| PropertyModel.EmptyImagesDiffer | backend/models/Property.js:18-20 | an empty image list is refused here with 400, but the route accepts it with 201, because the route checks only that the field is present (multer itself never produces an empty list) |
| PropertyController.CreateProperty | backend/controllers/propertyController.js:3-31 | a falsy field, or `image`/`document` absent, gives 400. A missing `req.files`, or an empty file list, throws and gives 500. Success is 201 with only the first image and first document, the caller as `user`, the location unwrapped, and the schema's default status |
| PropertyController.NoRoleGate | backend/controllers/propertyController.js:3-27 | there is no role gate: callers that differ only in role get identical results |
| AuthRoutes.Signup | backend/routes/auth.js:10-43 | a role outside {admin, agent, seller} gives 400 before any lookup; a known email gives 400; failures leave the users unchanged. Success is 201 with exactly one user appended, holding the digest of the password, and the role echoed. Unique emails and ids are preserved |
| AuthRoutes.BuyerSignupRejected | backend/routes/auth.js:14-17 | signing up as "buyer" always gives 400 and adds no user |
| AuthRoutes.SignupsKeepUsersUnique | backend/routes/auth.js:21-37 | any sequence of signups keeps emails, and ids, unique |
| AuthRoutes.Login | backend/routes/auth.js:46-70 | an unknown email gives 404 "User not found"; for the user found, a wrong password gives 401 "Invalid credentials" and a matching one is granted; success returns a token signed over exactly the user's id and role, plus id, username and role |
| AuthRoutes.LoginDecidedByPassword | backend/routes/auth.js:50-66 | when emails are unique, the whole answer for a known user's email is fixed by the password: a session with a token signed over that user's id and role if it matches the stored digest, otherwise 401 "Invalid credentials" |
| AuthRoutes.Profile | backend/routes/auth.js:73-83 | a missing user gives 404; otherwise 200 with that user's id, username, email and role, and no password field |
| AuthRoutes.SignupThenLogin | backend/routes/auth.js:27-66 | after a successful signup, logging in with the same email and password gives a token signed over the new id and role, if `compare` accepts a password against its own digest |
| AuthRoutes.SignupThenProfile | backend/routes/auth.js:30-79 | after a successful signup, the new id's profile is the submitted username, email and role, without the password |
| AuthController.LoginUser | backend/controllers/authController.js:5-27 | every refusal is the same 401 "Invalid email or password", so an unknown email and a wrong password look alike; an unknown email is always refused; for the user found, the password alone decides between the grant and that refusal; success returns a token signed over exactly the user's id and role, plus the stored role |
| AuthController.LoginUserDecidedByPassword | backend/controllers/authController.js:9-23 | when emails are unique, a known user is granted if and only if the password matches; otherwise the shared refusal |
| Workflow.Handle | backend/routes/agentRoutes.js:7-10 | agent routes skip authentication; every other route that fails authentication answers with the middleware's code and leaves the store unchanged; an admitted request is answered by its handler, with the stored user as caller |
| Workflow.AgentRoutesIgnoreToken | backend/routes/agentRoutes.js:7-10 | the agent approval answers the same whatever Authorization header is sent, or none |
| Workflow.HandleKeepsReachable | backend/controllers/agentController.js:6 | no mounted handler writes "agent-pending" or leaves a listing without a status |
| Workflow.RunKeepsReachable | backend/controllers/agentController.js:6 | no request sequence ever produces an "agent-pending" listing or a listing without a status |
| Workflow.AgentQueueNeverFed | backend/controllers/agentController.js:4-7 | after any request sequence from an empty store, the agent controller's queue is empty |
| Workflow.HandleChangesStatusOnly | backend/routes/adminRoutes.js:34-49 | any request other than a submission adds no listing and changes only statuses |
| Workflow.RunChangesStatusOnly | backend/routes/propertyRoutes.js:117-174 | with no submissions, a request sequence never adds a listing and never changes attributes, assets or owner |
| Workflow.PipelineReachesCatalogue | backend/routes/propertyRoutes.js:50-174 | submit, approve, verify and final-approve through the property routes put the listing in the buyers' catalogue and out of `/pending`, with its submitted data intact |
| Workflow.AdminPathStrands | backend/routes/adminRoutes.js:34 | submit, admin-route approve and agent approve leave the listing in "final_approval", which no admin, agent or buyer queue selects |
| Workflow.RejectUndoesSubmit | backend/routes/adminRoutes.js:49 | for a fresh id, rejecting it restores the store as it was before the submission, whether or not the submission succeeded |

## Left out

- Upload storage: multer's disk storage, timestamped file names and the MIME-type and size filter are not modelled. Uploaded files are the opaque paths the middleware records. The `maxCount` of 5 and the set of accepted field names are modelled.
- Cryptography: bcrypt hashing and comparison, and JWT signing and verification, are opaque function parameters. Salting, secrets and token expiry ("7d" in auth.js, "1h" in authController.js) are not modelled.
- Persistence: Mongoose schemas, casting and validation are not modelled. The file at backend/models/Property.js holds a controller, not a schema, so schema defaults are unknown. `PropertyController.CreateProperty` takes the default status as a parameter. Every listing route loads that same file as its `Property` model, and as written it exports only `createProperty`, so `find`, `findById`, `findByIdAndDelete` and `new Property` would throw and each catch would answer 500; the model assumes a working Mongoose model over the store in its place.
- Listings.WithStatus: returns a map, so the order of query results (the store's natural order) is not modelled.
- AuthMiddleware.Authenticate: a token id that Mongoose cannot cast throws inside the `try` and gives 401. The model treats every id as a plain key, so such an id gives 404.
- Malformed listing ids: Mongoose's cast errors on `findById`/`findByIdAndDelete` end in 500. They are not modelled; every id is a plain key.
- AuthRoutes.Signup: body fields are modelled as strings. An absent email (the query filter drops `undefined`) and an absent password (bcrypt throws) are not modelled.
- AuthRoutes.Login: `email` and `password` are modelled as strings. With no email, the lookup drops `undefined` from its filter and returns some stored user; the password is then checked against that user's digest, and a match grants that user's token. With no password, `bcrypt.compare` throws and the catch answers 500. Neither case is modelled.
- AuthController.LoginUser: the same two cases apply and are not modelled. With no email, the password is checked against whichever user the lookup returns. With no password, the comparison throws and the answer is 500 "Server error".
- Listings.Complete: each body field is modelled as text or absent. The multipart parser also builds arrays and objects from repeated or bracketed field names, and those values are not modelled. For example, `title[]=` gives `['']`, which is truthy and passes the field check, where the model's empty text gives 400.
- Storage failures and logging: the 500 answers for failed saves and lookups, and the console logging, are not modelled. The only 500s modelled are duplicate ids, upload-gate errors and the TypeErrors in propertyController.js.
- Concurrency: Express runs these async handlers concurrently, and they interleave at every `await` (between `findById` and `save`, for one). The model runs requests one at a time, so it does not capture those interleavings or the lost updates they allow.
- Response messages: they are kept only where they tell outcomes apart (authentication, signup, login). Elsewhere a body is a bare message, one listing or a set of listings.
- Route wiring: backend/server.js mounts `./routes/authRoutes`, which is not part of this model. auth.js is modelled as written. Neither backend/models/Property.js nor propertyController.js is mounted by any route shown.
- backend/controllers/adminController.js is dead code: nothing exports it or routes to it. Its "agent-pending" write is left out, which is why no mounted handler feeds the agent controller's queue.
- The React pages, which hold UI state, localStorage and HTTP calls, are not part of this model.

=== FILE: admin_routes.dfy ===
/** backend/routes/adminRoutes.js, behind `authenticateUser`: the admin's pending queue, approve and reject. */
module AdminRoutes {
  import opened Documents
  import opened Wrappers
  import opened Http
  import opened Users
  import opened Listings
  import PropertyRoutes

  /** GET `/pending`: the listings awaiting admin review, for admins only. */
  function Pending(caller: User, store: Store): (r: Outcome)
    ensures r.store == store
    ensures r.code == HttpOk <==> caller.role == AdminRole
    ensures r.code != HttpOk ==> r.code == HttpForbidden
    ensures r.code == HttpOk ==> r.body.Records?
    ensures r.code == HttpOk ==>
              forall id :: id in r.body.found <==> id in store && store[id].status == Some(PendingAdminReview)
    ensures r.code == HttpOk ==> forall id :: id in r.body.found ==> r.body.found[id] == store[id]
  {
    if caller.role != AdminRole then Outcome(HttpForbidden, MessageOnly, store)
    else Outcome(HttpOk, Records(WithStatus(store, PendingAdminReview)), store)
  }

  /**
   * PUT `/approve/:id`: sets "agent_verification", whatever the status was. No queue reads
   * that value, so the approved listing drops out of every status-filtered view.
   */
  function Approve(caller: User, id: ObjectId, store: Store): (r: Outcome)
    ensures caller.role != AdminRole ==> r.code == HttpForbidden && r.store == store
    ensures caller.role == AdminRole && id !in store ==> r.code == HttpNotFound && r.store == store
    ensures r.code == HttpOk <==> caller.role == AdminRole && id in store
    ensures r.code == HttpOk ==> Overwrote(store, r.store, id, AgentVerification)
    ensures r.code == HttpOk ==>
              && id !in WithStatus(r.store, PendingAdminReview)
              && id !in WithStatus(r.store, AgentAssigned)
              && id !in WithStatus(r.store, AgentPending)
              && id !in WithStatus(r.store, Listed)
  {
    GatedOverwrite(caller.role, AdminRole, id, store, AgentVerification)
  }

  /** DELETE `/reject/:id`: removes the listing, whatever its status; an absent id still succeeds. */
  function Reject(caller: User, id: ObjectId, store: Store): (r: Outcome)
    ensures caller.role != AdminRole ==> r.code == HttpForbidden && r.store == store
    ensures caller.role == AdminRole ==> r.code == HttpOk
    ensures caller.role == AdminRole ==> r.store.Keys == store.Keys - {id}
    ensures forall other :: other in r.store ==> other in store && r.store[other] == store[other]
    ensures id !in store ==> r.store == store
  {
    if caller.role != AdminRole then Outcome(HttpForbidden, MessageOnly, store)
    else Outcome(HttpOk, MessageOnly, store - {id})
  }

  /** Rejecting twice answers and leaves the store as rejecting once. */
  lemma RejectIdempotent(caller: User, id: ObjectId, store: Store)
    ensures Reject(caller, id, Reject(caller, id, store).store) == Reject(caller, id, store)
  {
  }

  /** The admin router's `/pending` and the property router's `/pending` answer alike. */
  lemma PendingRoutesAgree(caller: User, store: Store)
    ensures Pending(caller, store) == PropertyRoutes.Pending(caller, store)
  {
  }
}

=== FILE: agent_controller.dfy ===
/**
 * backend/controllers/agentController.js, mounted by backend/routes/agentRoutes.js without
 * `authenticateUser`: neither handler takes a caller, so neither checks a token or a role.
 */
module AgentController {
  import opened Documents
  import opened Wrappers
  import opened Http
  import opened Listings

  /** `getPendingPropertiesForAgent`: the listings whose status is "agent-pending". */
  function PendingForAgent(store: Store): (r: Outcome)
    ensures r.code == HttpOk && r.store == store
    ensures r.body.Records?
    ensures forall id :: id in r.body.found <==> id in store && store[id].status == Some(AgentPending)
    ensures forall id :: id in r.body.found ==> r.body.found[id] == store[id]
  {
    Outcome(HttpOk, Records(WithStatus(store, AgentPending)), store)
  }

  /** `approveProperty`: sets "final_approval", whatever the status was; answers with a message only. */
  function Approve(id: ObjectId, store: Store): (r: Outcome)
    ensures id !in store ==> r.code == HttpNotFound && r.store == store
    ensures r.code == HttpOk <==> id in store
    ensures r.code == HttpOk ==> Overwrote(store, r.store, id, FinalApproval) && r.body == MessageOnly
    ensures r.code == HttpOk ==> id !in WithStatus(r.store, AgentPending)
  {
    var o := Overwrite(id, store, FinalApproval);
    o.(body := MessageOnly)
  }
}

=== FILE: auth_controller.dfy ===
/** backend/controllers/authController.js, `loginUser`. */
module AuthController {
  import opened Http
  import opened Users
  import opened AuthMiddleware

  const BadCredentials := "Invalid email or password"

  /** The answer: a refusal, or the signed token and the stored role. */
  datatype LoginReply = Refused(code: int, message: string) | Granted(token: string, role: string)

  /** `compare` stands for `bcrypt.compare`, `sign` for `jwt.sign` with the server's secret. */
  function LoginUser(users: UserStore, email: string, password: string,
                     compare: (string, Digest) -> bool, sign: Claims -> string): (r: LoginReply)
    // an unknown email and a wrong password get the same answer
    ensures r.Refused? ==> r == Refused(HttpUnauthorized, BadCredentials)
    ensures (forall i :: 0 <= i < |users| ==> users[i].email != email) ==> r.Refused?
    ensures r.Granted? ==>
              exists u :: u in users && u.email == email && compare(password, u.password) &&
                          r.token == sign(Claims(u.id, u.role)) && r.role == u.role
    // a found user is granted exactly when the password matches
    ensures FindOne(users, ByEmail(email)).Some? ==>
              var u := FindOne(users, ByEmail(email)).value;
              r == if compare(password, u.password)
                   then Granted(sign(Claims(u.id, u.role)), u.role)
                   else Refused(HttpUnauthorized, BadCredentials)
  {
    match FindOne(users, ByEmail(email))
    case None => Refused(HttpUnauthorized, BadCredentials)
    case Some(u) =>
      if !compare(password, u.password) then Refused(HttpUnauthorized, BadCredentials)
      else Granted(sign(Claims(u.id, u.role)), u.role)
  }

  /** With unique emails, a known user logs in exactly when the password matches its digest. */
  lemma LoginUserDecidedByPassword(users: UserStore, i: nat, password: string,
                                   compare: (string, Digest) -> bool, sign: Claims -> string)
    requires UniqueEmails(users) && i < |users|
    ensures LoginUser(users, users[i].email, password, compare, sign) ==
            if compare(password, users[i].password)
            then Granted(sign(Claims(users[i].id, users[i].role)), users[i].role)
            else Refused(HttpUnauthorized, BadCredentials)
  {
    FindByUniqueEmail(users, i);
  }
}

=== FILE: auth_middleware.dfy ===
/**
 * backend/middleware/authMiddleware.js: `authenticateUser` (bearer-token extraction, token
 * verification, user lookup) and `roleAuth` (role-membership gate). Token verification is
 * an opaque parameter: the model does not look inside tokens.
 */
module AuthMiddleware {
  import opened Wrappers
  import opened Documents
  import opened Http
  import opened Users

  // ---------------------------------------------------------------------------------------
  // JavaScript's `String.prototype.split` with a one-character separator
  // ---------------------------------------------------------------------------------------

  /** Glues segments back together with the separator between neighbours. */
  function Join(parts: seq<string>, sep: char): string
    requires |parts| >= 1
  {
    if |parts| == 1 then parts[0] else parts[0] + [sep] + Join(parts[1..], sep)
  }

  /**
   * `s.split(sep)`: the maximal separator-free segments of `s`, empty ones included, so
   * that joining them back gives `s` again.
   */
  function Split(s: string, sep: char): (parts: seq<string>)
    ensures |parts| >= 1
    ensures forall i :: 0 <= i < |parts| ==> sep !in parts[i]
    ensures Join(parts, sep) == s
  {
    if |s| == 0 then [""]
    else
      var rest := Split(s[1..], sep);
      if s[0] == sep then
        assert ([""] + rest)[1..] == rest;
        [""] + rest
      else
        var parts := [[s[0]] + rest[0]] + rest[1..];
        assert parts[1..] == rest[1..];
        assert s == [s[0]] + s[1..];
        parts
  }

  /** Splitting a separator-free string gives that string alone. */
  lemma {:induction false} SplitPlain(a: string, sep: char)
    requires sep !in a
    ensures Split(a, sep) == [a]
  {
    if |a| > 0 {
      SplitPlain(a[1..], sep);
    }
  }

  /** A leading separator-free segment is split off whole. */
  lemma {:induction false} SplitSegment(a: string, sep: char, b: string)
    requires sep !in a
    ensures Split(a + [sep] + b, sep) == [a] + Split(b, sep)
  {
    if |a| == 0 {
      assert a + [sep] + b == [sep] + b;
      assert ([sep] + b)[1..] == b;
    } else {
      SplitSegment(a[1..], sep, b);
      assert (a + [sep] + b)[1..] == a[1..] + [sep] + b;
      assert [a[0]] + a[1..] == a;
    }
  }

  /** Splitting inverts joining when no segment holds the separator. */
  lemma {:induction false} SplitJoin(parts: seq<string>, sep: char)
    requires |parts| >= 1
    requires forall i :: 0 <= i < |parts| ==> sep !in parts[i]
    ensures Split(Join(parts, sep), sep) == parts
  {
    if |parts| == 1 {
      SplitPlain(parts[0], sep);
    } else {
      SplitJoin(parts[1..], sep);
      SplitSegment(parts[0], sep, Join(parts[1..], sep));
      assert [parts[0]] + parts[1..] == parts;
    }
  }

  // ---------------------------------------------------------------------------------------
  // authenticateUser
  // ---------------------------------------------------------------------------------------

  /**
   * `req.header("Authorization")?.split(" ")[1]`, kept only when truthy: the second
   * space-separated segment of the header, if there is one and it is not empty.
   */
  function BearerToken(header: Option<string>): (token: Option<string>)
    ensures header.None? ==> token.None?
    ensures token.Some? ==> token.value != "" && ' ' !in token.value
  {
    match header
    case None => None
    case Some(h) =>
      var parts := Split(h, ' ');
      if |parts| >= 2 && parts[1] != "" then Some(parts[1]) else None
  }

  /** A header `<scheme> <token>`, optionally followed by more space-separated text, yields the token. */
  lemma BearerTokenOf(scheme: string, token: string, rest: string)
    requires ' ' !in scheme && ' ' !in token && token != ""
    requires rest == "" || rest[0] == ' '
    ensures BearerToken(Some(scheme + " " + token + rest)) == Some(token)
  {
    var h := scheme + " " + token + rest;
    assert h == scheme + [' '] + (token + rest);
    SplitSegment(scheme, ' ', token + rest);
    if rest == "" {
      assert token + rest == token;
      SplitPlain(token, ' ');
    } else {
      assert token + rest == token + [' '] + rest[1..];
      SplitSegment(token, ' ', rest[1..]);
    }
  }

  /** Conversely, a header yields a token only when it has that shape; the lemma names the scheme and the rest. */
  lemma BearerTokenShape(h: string) returns (scheme: string, rest: string)
    requires BearerToken(Some(h)).Some?
    ensures ' ' !in scheme
    ensures rest == "" || rest[0] == ' '
    ensures h == scheme + " " + BearerToken(Some(h)).value + rest
  {
    var parts := Split(h, ' ');
    var token := parts[1];
    assert h == parts[0] + " " + Join(parts[1..], ' ');
    scheme := parts[0];
    if |parts| == 2 {
      assert Join(parts[1..], ' ') == token;
      rest := "";
      assert h == scheme + " " + token + rest;
    } else {
      rest := " " + Join(parts[2..], ' ');
      assert parts[1..][1..] == parts[2..];
      assert Join(parts[1..], ' ') == token + rest;
      assert h == scheme + " " + token + rest;
    }
  }

  /** What a verified token carries: the user id and the role it was signed with. */
  datatype Claims = Claims(id: ObjectId, role: string)

  /** The middleware's decision: reject with a status code, or call `next` with `req.user` set. */
  datatype AuthResult = Denied(code: int, message: string) | Admitted(user: User)

  /**
   * `authenticateUser`. `verify` stands for `jwt.verify` with the server's secret: None when
   * the token does not verify (the thrown error the catch turns into 401).
   */
  function Authenticate(header: Option<string>, verify: string -> Option<Claims>, users: UserStore): (r: AuthResult)
    ensures BearerToken(header).None? ==> r == Denied(HttpUnauthorized, "Access Denied: No Token Provided")
    ensures BearerToken(header).Some? && verify(BearerToken(header).value).None? ==>
              r == Denied(HttpUnauthorized, "Invalid Token")
    ensures r.Denied? ==> r.code == HttpUnauthorized || r.code == HttpNotFound
    ensures r.Denied? && r.code == HttpNotFound <==>
              && BearerToken(header).Some?
              && verify(BearerToken(header).value).Some?
              && forall i :: 0 <= i < |users| ==> users[i].id != verify(BearerToken(header).value).value.id
    ensures r.Admitted? ==>
              && BearerToken(header).Some?
              && verify(BearerToken(header).value).Some?
              && r.user in users
              && r.user.id == verify(BearerToken(header).value).value.id
    // a verified token whose id is stored is let through, with the stored record
    ensures r.Admitted? <==>
              && BearerToken(header).Some?
              && verify(BearerToken(header).value).Some?
              && exists i :: 0 <= i < |users| && users[i].id == verify(BearerToken(header).value).value.id
    ensures r.Admitted? ==> r.user == FindOne(users, ById(verify(BearerToken(header).value).value.id)).value
  {
    match BearerToken(header)
    case None => Denied(HttpUnauthorized, "Access Denied: No Token Provided")
    case Some(token) =>
      match verify(token)
      case None => Denied(HttpUnauthorized, "Invalid Token")
      case Some(claims) =>
        match FindOne(users, ById(claims.id))
        case None => Denied(HttpNotFound, "User Not Found")
        case Some(u) => Admitted(u)
  }

  /**
   * The role on `req.user` is the stored one: two verifiers that agree on the id in the
   * token but disagree on its role admit the same user record.
   */
  lemma RoleComesFromStore(header: Option<string>, v1: string -> Option<Claims>, v2: string -> Option<Claims>, users: UserStore)
    requires BearerToken(header).Some?
    requires v1(BearerToken(header).value).Some? && v2(BearerToken(header).value).Some?
    requires v1(BearerToken(header).value).value.id == v2(BearerToken(header).value).value.id
    ensures Authenticate(header, v1, users) == Authenticate(header, v2, users)
    ensures Authenticate(header, v1, users).Admitted? ==>
              Authenticate(header, v1, users).user == FindOne(users, ById(v1(BearerToken(header).value).value.id)).value
  {
  }

  // ---------------------------------------------------------------------------------------
  // roleAuth
  // ---------------------------------------------------------------------------------------

  datatype Gate = Next | Refuse(code: int, message: string)

  /** `roleAuth(roles)` applied to an authenticated user: `roles.includes(req.user.role)`. */
  function RoleAuth(roles: seq<string>, user: User): (g: Gate)
    ensures g == Next <==> user.role in roles
    ensures g.Refuse? ==> g.code == HttpForbidden
  {
    if user.role in roles then Next
    else Refuse(HttpForbidden, "Access Denied: Insufficient Privileges")
  }

  /** An empty role list admits nobody. */
  lemma RoleAuthEmpty(user: User)
    ensures RoleAuth([], user).Refuse?
  {
  }

  /** Enlarging the role list never turns a pass into a refusal. */
  lemma RoleAuthMonotone(roles: seq<string>, more: seq<string>, user: User)
    requires forall r :: r in roles ==> r in more
    ensures RoleAuth(roles, user) == Next ==> RoleAuth(more, user) == Next
  {
  }
}

=== FILE: auth_routes.dfy ===
/**
 * backend/routes/auth.js: `/signup`, `/login` and `/profile`. Password hashing, password
 * comparison and token signing are opaque parameters (`hash`, `compare`, `sign`).
 */
module AuthRoutes {
  import opened Wrappers
  import opened Documents
  import opened Http
  import opened Users
  import opened AuthMiddleware

  /** The roles a new account may take; "buyer" is not among them. */
  const AllowedRoles: seq<string> := [AdminRole, AgentRole, SellerRole]

  datatype SignupForm = SignupForm(username: string, email: string, password: string, role: string)

  /** The answer to a signup and the user collection afterwards; `role` is echoed on success. */
  datatype SignupOutcome = SignupOutcome(code: int, message: string, role: Option<string>, users: UserStore)

  /**
   * POST `/signup`. `hash` stands for `bcrypt.hash(_, 10)`; `newId` is the id the new
   * document receives.
   */
  function Signup(users: UserStore, form: SignupForm, hash: string -> Digest, newId: ObjectId): (r: SignupOutcome)
    // the role whitelist is checked before any lookup
    ensures form.role !in AllowedRoles ==>
              r == SignupOutcome(HttpBadRequest, "Invalid role selected", None, users)
    ensures form.role in AllowedRoles && (exists i :: 0 <= i < |users| && users[i].email == form.email) ==>
              r == SignupOutcome(HttpBadRequest, "User already exists", None, users)
    ensures r.code == HttpCreated <==>
              && form.role in AllowedRoles
              && (forall i :: 0 <= i < |users| ==> users[i].email != form.email)
              && (forall i :: 0 <= i < |users| ==> users[i].id != newId)
    ensures r.code != HttpCreated ==> r.users == users
    // a success appends one user holding the digest of the password, never the password
    ensures r.code == HttpCreated ==>
              && r.users == users + [User(newId, form.username, form.email, hash(form.password), form.role)]
              && r.role == Some(form.role)
    ensures UniqueEmails(users) ==> UniqueEmails(r.users)
    ensures UniqueIds(users) ==> UniqueIds(r.users)
  {
    if form.role !in AllowedRoles then
      SignupOutcome(HttpBadRequest, "Invalid role selected", None, users)
    else if FindOne(users, ByEmail(form.email)).Some? then
      SignupOutcome(HttpBadRequest, "User already exists", None, users)
    else if FindOne(users, ById(newId)).Some? then
      // a clashing `_id` fails the save with a duplicate-key error
      SignupOutcome(HttpServerError, "Signup failed", None, users)
    else
      var u := User(newId, form.username, form.email, hash(form.password), form.role);
      SignupOutcome(HttpCreated, "Account created successfully", Some(form.role), users + [u])
  }

  /** A "buyer" account cannot be created, whatever else the request holds. */
  lemma BuyerSignupRejected(users: UserStore, form: SignupForm, hash: string -> Digest, newId: ObjectId)
    requires form.role == "buyer"
    ensures Signup(users, form, hash, newId).code == HttpBadRequest
    ensures Signup(users, form, hash, newId).users == users
  {
  }

  datatype SignupRequest = SignupRequest(form: SignupForm, newId: ObjectId)

  /** The user collection after a sequence of signups, each seeing the result of the previous. */
  function SignupAll(users: UserStore, requests: seq<SignupRequest>, hash: string -> Digest): UserStore
    decreases |requests|
  {
    if |requests| == 0 then users
    else SignupAll(Signup(users, requests[0].form, hash, requests[0].newId).users, requests[1..], hash)
  }

  /** Sequential signups never create two users with the same email, nor two with the same id. */
  lemma {:induction false} SignupsKeepUsersUnique(users: UserStore, requests: seq<SignupRequest>, hash: string -> Digest)
    requires UniqueEmails(users) && UniqueIds(users)
    ensures UniqueEmails(SignupAll(users, requests, hash))
    ensures UniqueIds(SignupAll(users, requests, hash))
    decreases |requests|
  {
    if |requests| > 0 {
      var next := Signup(users, requests[0].form, hash, requests[0].newId).users;
      SignupsKeepUsersUnique(next, requests[1..], hash);
    }
  }

  /** What a successful login returns: the signed token and the public part of the user. */
  datatype Session = Session(token: string, id: ObjectId, username: string, role: string)

  datatype LoginReply = Refused(code: int, message: string) | Granted(session: Session)

  /**
   * POST `/login`. `compare` stands for `bcrypt.compare`, `sign` for `jwt.sign` with the
   * server's secret.
   */
  function Login(users: UserStore, email: string, password: string,
                 compare: (string, Digest) -> bool, sign: Claims -> string): (r: LoginReply)
    ensures (forall i :: 0 <= i < |users| ==> users[i].email != email) ==>
              r == Refused(HttpNotFound, "User not found")
    ensures r.Refused? ==> r.code == HttpNotFound || r == Refused(HttpUnauthorized, "Invalid credentials")
    ensures r.Refused? && r.code == HttpUnauthorized ==>
              exists u :: u in users && u.email == email && !compare(password, u.password)
    // the token carries exactly the user's id and role
    ensures r.Granted? ==>
              exists u :: u in users && u.email == email && compare(password, u.password) &&
                          r.session == Session(sign(Claims(u.id, u.role)), u.id, u.username, u.role)
    // a found user is granted exactly when the password matches, and refused with 401 otherwise
    ensures FindOne(users, ByEmail(email)).Some? ==>
              var u := FindOne(users, ByEmail(email)).value;
              r == if compare(password, u.password)
                   then Granted(Session(sign(Claims(u.id, u.role)), u.id, u.username, u.role))
                   else Refused(HttpUnauthorized, "Invalid credentials")
  {
    match FindOne(users, ByEmail(email))
    case None => Refused(HttpNotFound, "User not found")
    case Some(u) =>
      if !compare(password, u.password) then Refused(HttpUnauthorized, "Invalid credentials")
      else Granted(Session(sign(Claims(u.id, u.role)), u.id, u.username, u.role))
  }

  /** With unique emails, a known user logs in exactly when the password matches its digest. */
  lemma LoginDecidedByPassword(users: UserStore, i: nat, password: string,
                               compare: (string, Digest) -> bool, sign: Claims -> string)
    requires UniqueEmails(users) && i < |users|
    ensures Login(users, users[i].email, password, compare, sign) ==
            if compare(password, users[i].password)
            then Granted(Session(sign(Claims(users[i].id, users[i].role)), users[i].id, users[i].username, users[i].role))
            else Refused(HttpUnauthorized, "Invalid credentials")
  {
    FindByUniqueEmail(users, i);
  }

  /** A user as `/profile` returns it: every stored field except the password. */
  datatype PublicUser = PublicUser(id: ObjectId, username: string, email: string, role: string)

  datatype ProfileReply = ProfileReply(code: int, profile: Option<PublicUser>)

  /** GET `/profile` for the authenticated caller's id. */
  function Profile(users: UserStore, id: ObjectId): (r: ProfileReply)
    ensures r.code == HttpNotFound <==> forall i :: 0 <= i < |users| ==> users[i].id != id
    ensures r.code == HttpNotFound ==> r.profile.None?
    ensures r.code != HttpNotFound ==> r.code == HttpOk && r.profile.Some?
    ensures r.profile.Some? ==>
              exists u :: u in users && u.id == id &&
                          r.profile.value == PublicUser(u.id, u.username, u.email, u.role)
  {
    match FindOne(users, ById(id))
    case None => ProfileReply(HttpNotFound, None)
    case Some(u) => ProfileReply(HttpOk, Some(PublicUser(u.id, u.username, u.email, u.role)))
  }

  /**
   * A new account can log in: after a successful signup, logging in with the same email and
   * password (which `compare` accepts against its own digest) yields a token signed over the
   * new id and role.
   */
  lemma SignupThenLogin(users: UserStore, form: SignupForm, hash: string -> Digest, newId: ObjectId,
                        compare: (string, Digest) -> bool, sign: Claims -> string)
    requires Signup(users, form, hash, newId).code == HttpCreated
    requires compare(form.password, hash(form.password))
    ensures Login(Signup(users, form, hash, newId).users, form.email, form.password, compare, sign) ==
            Granted(Session(sign(Claims(newId, form.role)), newId, form.username, form.role))
  {
    var after := Signup(users, form, hash, newId).users;
    assert after[|users|].email == form.email;
    assert forall j :: 0 <= j < |users| ==> after[j] == users[j];
  }

  /** After a successful signup, the new id's profile is the submitted data without the password. */
  lemma SignupThenProfile(users: UserStore, form: SignupForm, hash: string -> Digest, newId: ObjectId)
    requires Signup(users, form, hash, newId).code == HttpCreated
    ensures Profile(Signup(users, form, hash, newId).users, newId) ==
            ProfileReply(HttpOk, Some(PublicUser(newId, form.username, form.email, form.role)))
  {
    var after := Signup(users, form, hash, newId).users;
    assert after[|users|].id == newId;
    assert forall j :: 0 <= j < |users| ==> after[j] == users[j];
  }
}

=== FILE: buyer_routes.dfy ===
/** backend/routes/buyerRoutes.js: the public catalogue, with no authentication. */
module BuyerRoutes {
  import opened Wrappers
  import opened Http
  import opened Listings

  /** GET `/`: exactly the listings whose status is "Listed"; the store is only read. */
  function Catalogue(store: Store): (r: Outcome)
    ensures r.code == HttpOk && r.store == store
    ensures r.body.Records?
    ensures forall id :: id in r.body.found ==> id in store && store[id].status == Some(Listed)
    ensures forall id :: id in store && store[id].status == Some(Listed) ==> id in r.body.found
    ensures forall id :: id in r.body.found ==> r.body.found[id] == store[id]
  {
    Outcome(HttpOk, Records(WithStatus(store, Listed)), store)
  }
}

=== FILE: documents.dfy ===
/** Identifiers the document store hands out. */
module Documents {

  /** A document id (a Mongo ObjectId), treated as an opaque string. */
  type ObjectId = string
}

=== FILE: http.dfy ===
/** What the route handlers see of an HTTP request and what they answer with. */
module Http {

  const HttpOk := 200
  const HttpCreated := 201
  const HttpBadRequest := 400
  const HttpUnauthorized := 401
  const HttpForbidden := 403
  const HttpNotFound := 404
  const HttpServerError := 500

  /** A request-body field: absent (`undefined`) or the text a form sent. */
  datatype FormValue = Missing | Text(text: string)

  /** JavaScript truthiness of a form field: present and not the empty string. */
  predicate Truthy(v: FormValue) {
    v.Text? && v.text != ""
  }

  /** The path the upload middleware recorded for one stored file. */
  type AssetRef = string

  /** `req.files`: the uploaded files by form-field name, in upload order. */
  type Files = map<string, seq<AssetRef>>
}

=== FILE: listings.dfy ===
/**
 * The listing collection as the route handlers use it: a map from document id to listing
 * record, the status vocabulary the handlers write and filter on, and the shared shape of
 * a handler's answer.
 */
module Listings {
  import opened Wrappers
  import opened Documents
  import opened Http

  /** Every status literal any handler writes or filters on, one constructor each. */
  datatype Status =
    | PendingAdminReview
    | AgentAssigned
    | FinalAdminReview
    | Listed
    | AgentVerification
    | AgentPending
    | FinalApproval

  /** The string stored in the `status` field for each status. */
  function Literal(s: Status): string {
    match s
    case PendingAdminReview => "Pending Admin Review"
    case AgentAssigned => "Agent Assigned"
    case FinalAdminReview => "Final Admin Review"
    case Listed => "Listed"
    case AgentVerification => "agent_verification"
    case AgentPending => "agent-pending"
    case FinalApproval => "final_approval"
  }

  /** Reads a stored `status` string back; None for text no handler ever writes. */
  function ParseStatus(text: string): Option<Status> {
    if text == "Pending Admin Review" then Some(PendingAdminReview)
    else if text == "Agent Assigned" then Some(AgentAssigned)
    else if text == "Final Admin Review" then Some(FinalAdminReview)
    else if text == "Listed" then Some(Listed)
    else if text == "agent_verification" then Some(AgentVerification)
    else if text == "agent-pending" then Some(AgentPending)
    else if text == "final_approval" then Some(FinalApproval)
    else None
  }

  /**
   * The literals are pairwise distinct and each reads back as its own status, so an exact
   * string filter selects exactly one status: "agent_verification", "agent-pending" and
   * "Agent Assigned" are three different values.
   */
  lemma LiteralRoundTrip(s: Status)
    ensures ParseStatus(Literal(s)) == Some(s)
  {
  }

  /** Every string that parses is the literal of the status it parses to. */
  lemma ParseRoundTrip(text: string)
    ensures ParseStatus(text).Some? ==> Literal(ParseStatus(text).value) == text
  {
  }

  /** The five text fields of a submission form. */
  datatype ListingForm = ListingForm(
    title: FormValue, price: FormValue, location: FormValue, propertyType: FormValue, areaSize: FormValue)

  /** `title && price && location && propertyType && areaSize` is truthy. */
  predicate Complete(f: ListingForm) {
    Truthy(f.title) && Truthy(f.price) && Truthy(f.location) && Truthy(f.propertyType) && Truthy(f.areaSize)
  }

  /** The stored location: wrapped as `{ address }`, or the submitted value as is. */
  datatype Location = Address(address: string) | Plain(text: string)

  datatype Attributes = Attributes(
    title: string, price: string, location: Location, propertyType: string, areaSize: string)

  /** Image and document paths: lists (`images`/`documents`) or one of each (`image`/`document`). */
  datatype Assets = Gallery(images: seq<AssetRef>, documents: seq<AssetRef>) | Single(image: AssetRef, document: AssetRef)

  /** The owner reference, under the field name the creating handler uses. */
  datatype Owner = BySeller(id: ObjectId) | ByUser(id: ObjectId)

  /** A stored listing; `status` is None when the record was saved without one. */
  datatype Listing = Listing(attributes: Attributes, assets: Assets, owner: Owner, status: Option<Status>)

  type Store = map<ObjectId, Listing>

  /** The attributes a complete form is saved with; `wrap` puts the location in `{ address }`. */
  function AttributesOf(f: ListingForm, wrap: bool): Attributes
    requires Complete(f)
  {
    Attributes(f.title.text, f.price.text,
               if wrap then Address(f.location.text) else Plain(f.location.text),
               f.propertyType.text, f.areaSize.text)
  }

  /** The response body: a bare message, one listing, or a set of listings. */
  datatype Body = MessageOnly | Record(id: ObjectId, listing: Listing) | Records(found: Store)

  /** What a handler produces: the HTTP status code, the body, and the store afterwards. */
  datatype Outcome = Outcome(code: int, body: Body, store: Store)

  /** `Property.find({ status })`: the listings whose status is exactly `s`. */
  function WithStatus(store: Store, s: Status): (found: Store)
    ensures found.Keys <= store.Keys
    ensures forall id :: id in store && store[id].status == Some(s) ==> id in found
    ensures forall id :: id in found ==> found[id] == store[id] && store[id].status == Some(s)
  {
    map id | id in store && store[id].status == Some(s) :: store[id]
  }

  /** Distinct statuses select disjoint sets of listings, and each listing with a status is selected by it. */
  lemma QueuesPartition(store: Store, s1: Status, s2: Status, id: ObjectId)
    requires s1 != s2
    ensures id !in WithStatus(store, s1) || id !in WithStatus(store, s2)
    ensures id in store && store[id].status.Some? ==> id in WithStatus(store, store[id].status.value)
  {
  }

  /** `after` is `before` with only the status of listing `id` overwritten by `s`. */
  predicate Overwrote(before: Store, after: Store, id: ObjectId, s: Status) {
    && id in before
    && after.Keys == before.Keys
    && after[id] == before[id].(status := Some(s))
    && forall other :: other in before && other != id ==> after[other] == before[other]
  }

  /**
   * `findById(id)`, then `status = target` and `save()`: 404 when the id is absent,
   * otherwise the listing's status is overwritten whatever it was.
   */
  function Overwrite(id: ObjectId, store: Store, target: Status): (r: Outcome)
    ensures id !in store ==> r == Outcome(HttpNotFound, MessageOnly, store)
    ensures id in store ==> r.code == HttpOk && Overwrote(store, r.store, id, target)
    ensures id in store ==> r.body == Record(id, r.store[id])
  {
    if id !in store then Outcome(HttpNotFound, MessageOnly, store)
    else
      var after := store[id := store[id].(status := Some(target))];
      Outcome(HttpOk, Record(id, after[id]), after)
  }

  /**
   * The transition handlers' shape: a role check (403) before the lookup (404), then the
   * overwrite.
   */
  function GatedOverwrite(role: string, required: string, id: ObjectId, store: Store, target: Status): (r: Outcome)
    ensures role != required ==> r == Outcome(HttpForbidden, MessageOnly, store)
    ensures role == required ==> r == Overwrite(id, store, target)
  {
    if role != required then Outcome(HttpForbidden, MessageOnly, store)
    else Overwrite(id, store, target)
  }

  /** The effect of overwriting on the status queues: the listing leaves its old queue and joins the new one; no other entry moves. */
  lemma OverwriteMovesQueues(store: Store, id: ObjectId, from: Status, target: Status)
    requires id in store && store[id].status == Some(from)
    requires from != target
    ensures var after := Overwrite(id, store, target).store;
            && WithStatus(after, from) == WithStatus(store, from) - {id}
            && WithStatus(after, target) == WithStatus(store, target)[id := after[id]]
  {
    var after := Overwrite(id, store, target).store;
    assert WithStatus(after, from).Keys == (WithStatus(store, from) - {id}).Keys;
    assert WithStatus(after, target).Keys == WithStatus(store, target)[id := after[id]].Keys;
  }
}

=== FILE: property_controller.dfy ===
/**
 * backend/controllers/propertyController.js, `createProperty`: no role check, the single
 * file fields `image` and `document`, and no explicit status.
 */
module PropertyController {
  import opened Wrappers
  import opened Documents
  import opened Http
  import opened Users
  import opened Listings

  /**
   * `schemaDefault` is whatever status the (unseen) schema gives a record saved without one;
   * None when it gives none.
   */
  function CreateProperty(caller: User, form: ListingForm, files: Option<Files>, newId: ObjectId,
                          store: Store, schemaDefault: Option<Status>): (r: Outcome)
    ensures !Complete(form) ==> r.code == HttpBadRequest && r.store == store
    // with every field present, `req.files.image` on a missing `req.files` throws: 500
    ensures Complete(form) && files.None? ==> r.code == HttpServerError && r.store == store
    ensures Complete(form) && files.Some? && ("image" !in files.value || "document" !in files.value) ==>
              r.code == HttpBadRequest && r.store == store
    // an empty list passes the presence check, and reading `[0].path` of it throws: 500
    ensures Complete(form) && files.Some? && "image" in files.value && "document" in files.value &&
            (|files.value["image"]| == 0 || |files.value["document"]| == 0) ==>
              r.code == HttpServerError && r.store == store
    ensures r.code == HttpCreated <==>
              && Complete(form) && files.Some?
              && "image" in files.value && |files.value["image"]| > 0
              && "document" in files.value && |files.value["document"]| > 0
              && newId !in store
    ensures r.code != HttpCreated ==> r.store == store
    ensures r.code == HttpCreated ==>
              && newId in r.store
              && r.store == store[newId := r.store[newId]]
              && r.body == Record(newId, r.store[newId])
              && r.store[newId].owner == ByUser(caller.id)
              && r.store[newId].status == schemaDefault
              && r.store[newId].attributes == AttributesOf(form, false)
              && r.store[newId].assets == Single(files.value["image"][0], files.value["document"][0])
  {
    if !Complete(form) then Outcome(HttpBadRequest, MessageOnly, store)
    else if files.None? then Outcome(HttpServerError, MessageOnly, store)
    else if "image" !in files.value || "document" !in files.value then Outcome(HttpBadRequest, MessageOnly, store)
    else if |files.value["image"]| == 0 || |files.value["document"]| == 0 then Outcome(HttpServerError, MessageOnly, store)
    else if newId in store then Outcome(HttpServerError, MessageOnly, store)
    else
      var listing := Listing(AttributesOf(form, false),
                             Single(files.value["image"][0], files.value["document"][0]),
                             ByUser(caller.id), schemaDefault);
      Outcome(HttpCreated, Record(newId, listing), store[newId := listing])
  }

  /** No role gate: callers that differ only in role get the same answer and the same store. */
  lemma NoRoleGate(c1: User, c2: User, form: ListingForm, files: Option<Files>, newId: ObjectId,
                   store: Store, schemaDefault: Option<Status>)
    requires c1.id == c2.id
    ensures CreateProperty(c1, form, files, newId, store, schemaDefault) ==
            CreateProperty(c2, form, files, newId, store, schemaDefault)
  {
  }
}

=== FILE: property_model.dfy ===
/**
 * The `createProperty` controller kept in backend/models/Property.js: seller-only
 * submission with non-empty image and document lists.
 */
module PropertyModel {
  import opened Wrappers
  import opened Documents
  import opened Http
  import opened Users
  import opened Listings
  import PropertyRoutes

  /** A file field is present and holds at least one file. */
  predicate HasFiles(files: Option<Files>, field: string) {
    files.Some? && field in files.value && |files.value[field]| > 0
  }

  function CreateProperty(caller: User, form: ListingForm, files: Option<Files>, newId: ObjectId, store: Store): (r: Outcome)
    // the seller check comes before any field or file check
    ensures caller.role != SellerRole ==> r.code == HttpForbidden && r.store == store
    ensures caller.role == SellerRole && !Complete(form) ==> r.code == HttpBadRequest && r.store == store
    ensures caller.role == SellerRole && Complete(form) &&
            (!HasFiles(files, "images") || !HasFiles(files, "documents")) ==>
              r.code == HttpBadRequest && r.store == store
    ensures r.code == HttpCreated <==>
              && caller.role == SellerRole && Complete(form)
              && HasFiles(files, "images") && HasFiles(files, "documents")
              && newId !in store
    ensures r.code != HttpCreated ==> r.store == store
    ensures r.code == HttpCreated ==>
              && newId in r.store
              && r.store == store[newId := r.store[newId]]
              && r.body == Record(newId, r.store[newId])
              && r.store[newId].status == Some(PendingAdminReview)
              && r.store[newId].owner == ByUser(caller.id)
              && r.store[newId].attributes == AttributesOf(form, true)
              && r.store[newId].assets == Gallery(files.value["images"], files.value["documents"])
              && |r.store[newId].assets.images| > 0 && |r.store[newId].assets.documents| > 0
  {
    if caller.role != SellerRole then Outcome(HttpForbidden, MessageOnly, store)
    else if !Complete(form) then Outcome(HttpBadRequest, MessageOnly, store)
    else if !HasFiles(files, "images") || !HasFiles(files, "documents") then Outcome(HttpBadRequest, MessageOnly, store)
    else if newId in store then Outcome(HttpServerError, MessageOnly, store)
    else
      var listing := Listing(AttributesOf(form, true),
                             Gallery(files.value["images"], files.value["documents"]),
                             ByUser(caller.id), Some(PendingAdminReview));
      Outcome(HttpCreated, Record(newId, listing), store[newId := listing])
  }

  /**
   * Against the mounted route: on uploads the route's middleware accepts and that hold at
   * least one image and one document, both answer alike and store the same listing, except
   * that the owner is recorded as `user` instead of `seller`.
   */
  lemma AgreesWithRoute(caller: User, form: ListingForm, files: Files, newId: ObjectId, store: Store)
    requires PropertyRoutes.UploadAccepted(Some(files))
    requires HasFiles(Some(files), "images") && HasFiles(Some(files), "documents")
    ensures CreateProperty(caller, form, Some(files), newId, store).code ==
            PropertyRoutes.Submit(caller, form, Some(files), newId, store).code
    ensures CreateProperty(caller, form, Some(files), newId, store).code == HttpCreated ==>
            CreateProperty(caller, form, Some(files), newId, store).store ==
            PropertyRoutes.Submit(caller, form, Some(files), newId, store).store[newId :=
              PropertyRoutes.Submit(caller, form, Some(files), newId, store).store[newId].(owner := ByUser(caller.id))]
  {
  }

  /** Where they differ: an empty image list is accepted by the route but refused here. */
  lemma EmptyImagesDiffer(caller: User, form: ListingForm, documents: seq<AssetRef>, newId: ObjectId, store: Store)
    requires caller.role == SellerRole && Complete(form) && newId !in store
    requires 0 < |documents| <= PropertyRoutes.MaxFilesPerField
    ensures var files := map["images" := [], "documents" := documents];
            && CreateProperty(caller, form, Some(files), newId, store).code == HttpBadRequest
            && PropertyRoutes.Submit(caller, form, Some(files), newId, store).code == HttpCreated
  {
  }
}

=== FILE: property_routes.dfy ===
/**
 * backend/routes/propertyRoutes.js, behind `authenticateUser`: the seller's submission, the
 * admin and agent queues, and the three status transitions (approve, verify, final-approve).
 * Each handler receives the authenticated `req.user` as `caller`.
 */
module PropertyRoutes {
  import opened Wrappers
  import opened Documents
  import opened Http
  import opened Users
  import opened Listings

  /** `maxCount` of each file field the upload middleware accepts. */
  const MaxFilesPerField := 5

  /**
   * The upload middleware's own gate, which runs before the handler: only the `images` and
   * `documents` fields, at most five files each. Anything else is an upload error, which
   * the server's error handler answers with 500.
   */
  predicate UploadAccepted(files: Option<Files>) {
    files.None? ||
    forall field :: field in files.value ==>
      (field == "images" || field == "documents") && |files.value[field]| <= MaxFilesPerField
  }

  /** POST `/`: submit a listing for admin review. */
  function Submit(caller: User, form: ListingForm, files: Option<Files>, newId: ObjectId, store: Store): (r: Outcome)
    // the upload gate, then the seller check, both before any field is looked at
    ensures !UploadAccepted(files) ==> r.code == HttpServerError && r.store == store
    ensures UploadAccepted(files) && caller.role != SellerRole ==> r.code == HttpForbidden && r.store == store
    ensures UploadAccepted(files) && caller.role == SellerRole && !Complete(form) ==>
              r.code == HttpBadRequest && r.store == store
    ensures UploadAccepted(files) && caller.role == SellerRole && Complete(form) &&
            (files.None? || "images" !in files.value || "documents" !in files.value) ==>
              r.code == HttpBadRequest && r.store == store
    ensures r.code == HttpCreated <==>
              && UploadAccepted(files) && caller.role == SellerRole && Complete(form)
              && files.Some? && "images" in files.value && "documents" in files.value
              && newId !in store
    ensures r.code != HttpCreated ==> r.store == store
    // a success stores exactly one new listing, pending admin review
    ensures r.code == HttpCreated ==>
              && newId in r.store
              && r.store == store[newId := r.store[newId]]
              && r.body == Record(newId, r.store[newId])
              && r.store[newId].status == Some(PendingAdminReview)
              && r.store[newId].owner == BySeller(caller.id)
              && r.store[newId].attributes == AttributesOf(form, true)
              && r.store[newId].assets == Gallery(files.value["images"], files.value["documents"])
              && |r.store[newId].assets.images| <= MaxFilesPerField
              && |r.store[newId].assets.documents| <= MaxFilesPerField
  {
    if !UploadAccepted(files) then Outcome(HttpServerError, MessageOnly, store)
    else if caller.role != SellerRole then Outcome(HttpForbidden, MessageOnly, store)
    else if !Complete(form) then Outcome(HttpBadRequest, MessageOnly, store)
    else if files.None? || "images" !in files.value || "documents" !in files.value then
      Outcome(HttpBadRequest, MessageOnly, store)
    else if newId in store then
      // a clashing `_id` fails the save with a duplicate-key error
      Outcome(HttpServerError, MessageOnly, store)
    else
      var listing := Listing(AttributesOf(form, true),
                             Gallery(files.value["images"], files.value["documents"]),
                             BySeller(caller.id), Some(PendingAdminReview));
      Outcome(HttpCreated, Record(newId, listing), store[newId := listing])
  }

  /** GET `/all`: every listing, for admins and agents only. */
  function All(caller: User, store: Store): (r: Outcome)
    ensures r.store == store
    ensures r.code == HttpOk <==> caller.role == AdminRole || caller.role == AgentRole
    ensures r.code != HttpOk ==> r.code == HttpForbidden
    ensures r.code == HttpOk ==> r.body == Records(store)
  {
    if caller.role != AdminRole && caller.role != AgentRole then Outcome(HttpForbidden, MessageOnly, store)
    else Outcome(HttpOk, Records(store), store)
  }

  /** GET `/pending`: the listings awaiting admin review, for admins only. */
  function Pending(caller: User, store: Store): (r: Outcome)
    ensures r.store == store
    ensures r.code == HttpOk <==> caller.role == AdminRole
    ensures r.code != HttpOk ==> r.code == HttpForbidden
    ensures r.code == HttpOk ==> r.body.Records?
    ensures r.code == HttpOk ==>
              forall id :: id in r.body.found <==> id in store && store[id].status == Some(PendingAdminReview)
    ensures r.code == HttpOk ==> forall id :: id in r.body.found ==> r.body.found[id] == store[id]
  {
    if caller.role != AdminRole then Outcome(HttpForbidden, MessageOnly, store)
    else Outcome(HttpOk, Records(WithStatus(store, PendingAdminReview)), store)
  }

  /** GET `/agent-verification`: the listings assigned to agents, for agents only. */
  function AgentQueue(caller: User, store: Store): (r: Outcome)
    ensures r.store == store
    ensures r.code == HttpOk <==> caller.role == AgentRole
    ensures r.code != HttpOk ==> r.code == HttpForbidden
    ensures r.code == HttpOk ==> r.body.Records?
    ensures r.code == HttpOk ==>
              forall id :: id in r.body.found <==> id in store && store[id].status == Some(AgentAssigned)
    ensures r.code == HttpOk ==> forall id :: id in r.body.found ==> r.body.found[id] == store[id]
  {
    if caller.role != AgentRole then Outcome(HttpForbidden, MessageOnly, store)
    else Outcome(HttpOk, Records(WithStatus(store, AgentAssigned)), store)
  }

  /** PUT `/approve/:id`: an admin assigns the listing to agents, whatever its status. */
  function Approve(caller: User, id: ObjectId, store: Store): (r: Outcome)
    ensures caller.role != AdminRole ==> r.code == HttpForbidden && r.store == store
    ensures caller.role == AdminRole && id !in store ==> r.code == HttpNotFound && r.store == store
    ensures r.code == HttpOk <==> caller.role == AdminRole && id in store
    ensures r.code == HttpOk ==> Overwrote(store, r.store, id, AgentAssigned)
  {
    GatedOverwrite(caller.role, AdminRole, id, store, AgentAssigned)
  }

  /** PUT `/verify/:id`: an agent sends the listing to final admin review, whatever its status. */
  function Verify(caller: User, id: ObjectId, store: Store): (r: Outcome)
    ensures caller.role != AgentRole ==> r.code == HttpForbidden && r.store == store
    ensures caller.role == AgentRole && id !in store ==> r.code == HttpNotFound && r.store == store
    ensures r.code == HttpOk <==> caller.role == AgentRole && id in store
    ensures r.code == HttpOk ==> Overwrote(store, r.store, id, FinalAdminReview)
  {
    GatedOverwrite(caller.role, AgentRole, id, store, FinalAdminReview)
  }

  /** PUT `/final-approve/:id`: an admin lists the listing for buyers, whatever its status. */
  function FinalApprove(caller: User, id: ObjectId, store: Store): (r: Outcome)
    ensures caller.role != AdminRole ==> r.code == HttpForbidden && r.store == store
    ensures caller.role == AdminRole && id !in store ==> r.code == HttpNotFound && r.store == store
    ensures r.code == HttpOk <==> caller.role == AdminRole && id in store
    ensures r.code == HttpOk ==> Overwrote(store, r.store, id, Listed)
  {
    GatedOverwrite(caller.role, AdminRole, id, store, Listed)
  }

  /** Approving a pending listing moves it from the admin's pending queue to the agent queue; nothing else in either queue changes. */
  lemma ApproveMovesToAgentQueue(admin: User, agent: User, id: ObjectId, store: Store)
    requires admin.role == AdminRole && agent.role == AgentRole
    requires id in store && store[id].status == Some(PendingAdminReview)
    ensures var after := Approve(admin, id, store).store;
            && Pending(admin, after).body.found == Pending(admin, store).body.found - {id}
            && AgentQueue(agent, after).body.found == AgentQueue(agent, store).body.found[id := after[id]]
            && id !in Pending(admin, after).body.found
            && id in AgentQueue(agent, after).body.found
  {
  }

  /** No pipeline is enforced: final approval lists a listing straight from pending admin review. */
  lemma FinalApproveSkipsPipeline(admin: User, id: ObjectId, store: Store)
    requires admin.role == AdminRole
    requires id in store && store[id].status == Some(PendingAdminReview)
    ensures FinalApprove(admin, id, store).code == HttpOk
    ensures FinalApprove(admin, id, store).store[id].status == Some(Listed)
  {
  }

  /** `/all` shows admins every listing the status queues show, pending ones included. */
  lemma AllCoversQueues(admin: User, id: ObjectId, store: Store, s: Status)
    requires admin.role == AdminRole
    requires id in WithStatus(store, s)
    ensures All(admin, store).code == HttpOk
    ensures id in All(admin, store).body.found && All(admin, store).body.found[id] == WithStatus(store, s)[id]
  {
  }
}

=== FILE: users.dfy ===
/** The user collection the auth routes and middleware consult. */
module Users {
  import opened Wrappers
  import opened Documents

  const AdminRole := "admin"
  const AgentRole := "agent"
  const SellerRole := "seller"

  /** A bcrypt digest, stored in place of the password; its text is opaque here. */
  datatype Digest = Digest(text: string)

  datatype User = User(id: ObjectId, username: string, email: string, password: Digest, role: string)

  /** The users in natural (insertion) order: the order in which `findOne` and `findById` scan. */
  type UserStore = seq<User>

  /** The two lookups the code performs: `findById(id)` and `findOne({ email })`. */
  datatype Key = ById(id: ObjectId) | ByEmail(email: string)

  predicate Matches(u: User, k: Key) {
    match k
    case ById(id) => u.id == id
    case ByEmail(e) => u.email == e
  }

  /** Position of the first user the key matches. */
  function FirstMatch(users: UserStore, k: Key): (r: Option<nat>)
    ensures r.Some? ==> r.value < |users| && Matches(users[r.value], k)
    ensures r.Some? ==> forall j :: 0 <= j < r.value ==> !Matches(users[j], k)
    ensures r.None? <==> forall j :: 0 <= j < |users| ==> !Matches(users[j], k)
  {
    if |users| == 0 then None
    else if Matches(users[0], k) then Some(0)
    else
      match FirstMatch(users[1..], k)
      case None => None
      case Some(i) => Some(i + 1)
  }

  /** The document a lookup returns, or `null` (None) when nothing matches. */
  function FindOne(users: UserStore, k: Key): (r: Option<User>)
    ensures r.Some? <==> exists i :: 0 <= i < |users| && Matches(users[i], k)
    ensures r.Some? ==> r.value in users && Matches(r.value, k)
  {
    match FirstMatch(users, k)
    case None => None
    case Some(i) => Some(users[i])
  }

  predicate UniqueEmails(users: UserStore) {
    forall i, j :: 0 <= i < j < |users| ==> users[i].email != users[j].email
  }

  predicate UniqueIds(users: UserStore) {
    forall i, j :: 0 <= i < j < |users| ==> users[i].id != users[j].id
  }

  /** With unique emails, looking a user up by its email finds exactly that user. */
  lemma FindByUniqueEmail(users: UserStore, i: nat)
    requires UniqueEmails(users)
    requires i < |users|
    ensures FindOne(users, ByEmail(users[i].email)) == Some(users[i])
  {
  }

  /** With unique ids, looking a user up by its id finds exactly that user. */
  lemma FindByUniqueId(users: UserStore, i: nat)
    requires UniqueIds(users)
    requires i < |users|
    ensures FindOne(users, ById(users[i].id)) == Some(users[i])
  {
  }
}

=== FILE: workflow.dfy ===
/**
 * The mounted listing handlers put together: each request is authenticated (except the
 * agent routes, which are mounted without `authenticateUser`) and dispatched to its
 * handler. Lemmas here are about sequences of requests: which statuses can occur, which
 * queues are ever fed, and what the approval handlers leave untouched.
 */
module Workflow {
  import opened Wrappers
  import opened Documents
  import opened Http
  import opened Users
  import opened Listings
  import opened AuthMiddleware
  import PropertyRoutes
  import AdminRoutes
  import AgentController
  import BuyerRoutes

  /** The store-changing requests of the mounted routes. */
  datatype Action =
    | Submit(form: ListingForm, files: Option<Files>, newId: ObjectId)   // POST /api/properties
    | Approve(id: ObjectId)                                              // PUT /api/properties/approve/:id
    | Verify(id: ObjectId)                                               // PUT /api/properties/verify/:id
    | FinalApprove(id: ObjectId)                                         // PUT /api/properties/final-approve/:id
    | AdminApprove(id: ObjectId)                                         // PUT /api/admin/approve/:id
    | AdminReject(id: ObjectId)                                          // DELETE /api/admin/reject/:id
    | AgentApprove(id: ObjectId)                                         // PUT /api/agent/approve/:id

  datatype Request = Request(header: Option<string>, action: Action)

  /** The handler an authenticated request reaches. */
  function Dispatch(caller: User, action: Action, store: Store): Outcome {
    match action
    case Submit(form, files, newId) => PropertyRoutes.Submit(caller, form, files, newId, store)
    case Approve(id) => PropertyRoutes.Approve(caller, id, store)
    case Verify(id) => PropertyRoutes.Verify(caller, id, store)
    case FinalApprove(id) => PropertyRoutes.FinalApprove(caller, id, store)
    case AdminApprove(id) => AdminRoutes.Approve(caller, id, store)
    case AdminReject(id) => AdminRoutes.Reject(caller, id, store)
    case AgentApprove(id) => AgentController.Approve(id, store)
  }

  /** One request: authentication first, unless the route is one of the agent routes. */
  function Handle(users: UserStore, verify: string -> Option<Claims>, store: Store, req: Request): (r: Outcome)
    ensures req.action.AgentApprove? ==> r == AgentController.Approve(req.action.id, store)
    ensures !req.action.AgentApprove? && Authenticate(req.header, verify, users).Denied? ==>
              r.code == Authenticate(req.header, verify, users).code && r.store == store
    ensures !req.action.AgentApprove? && Authenticate(req.header, verify, users).Admitted? ==>
              r == Dispatch(Authenticate(req.header, verify, users).user, req.action, store)
  {
    if req.action.AgentApprove? then AgentController.Approve(req.action.id, store)
    else
      match Authenticate(req.header, verify, users)
      case Denied(code, _) => Outcome(code, MessageOnly, store)
      case Admitted(caller) => Dispatch(caller, req.action, store)
  }

  /** The agent routes answer the same whatever Authorization header is sent, or none. */
  lemma AgentRoutesIgnoreToken(users: UserStore, verify: string -> Option<Claims>, store: Store,
                               h1: Option<string>, h2: Option<string>, id: ObjectId)
    ensures Handle(users, verify, store, Request(h1, AgentApprove(id))) ==
            Handle(users, verify, store, Request(h2, AgentApprove(id)))
  {
  }

  /** The store after a sequence of requests, each seeing the result of the previous. */
  function Run(users: UserStore, verify: string -> Option<Claims>, store: Store, reqs: seq<Request>): Store
    decreases |reqs|
  {
    if |reqs| == 0 then store
    else Run(users, verify, Handle(users, verify, store, reqs[0]).store, reqs[1..])
  }

  /**
   * The statuses a store built by the mounted handlers can hold: every listing has one, and
   * it is never "agent-pending", which no mounted handler writes.
   */
  predicate Reachable(store: Store) {
    forall id :: id in store ==> store[id].status.Some? && store[id].status != Some(AgentPending)
  }

  lemma HandleKeepsReachable(users: UserStore, verify: string -> Option<Claims>, store: Store, req: Request)
    requires Reachable(store)
    ensures Reachable(Handle(users, verify, store, req).store)
  {
  }

  /** Every request sequence from a reachable store (the empty one, say) stays reachable. */
  lemma {:induction false} RunKeepsReachable(users: UserStore, verify: string -> Option<Claims>, store: Store, reqs: seq<Request>)
    requires Reachable(store)
    ensures Reachable(Run(users, verify, store, reqs))
    decreases |reqs|
  {
    if |reqs| > 0 {
      HandleKeepsReachable(users, verify, store, reqs[0]);
      RunKeepsReachable(users, verify, Handle(users, verify, store, reqs[0]).store, reqs[1..]);
    }
  }

  /**
   * The agent dashboard's queue ("agent-pending") is never fed: after any sequence of
   * requests starting from an empty store it returns nothing.
   */
  lemma AgentQueueNeverFed(users: UserStore, verify: string -> Option<Claims>, reqs: seq<Request>)
    ensures forall id :: id !in AgentController.PendingForAgent(Run(users, verify, map[], reqs)).body.found
  {
    RunKeepsReachable(users, verify, map[], reqs);
  }

  predicate NoSubmissions(reqs: seq<Request>) {
    forall i :: 0 <= i < |reqs| ==> !reqs[i].action.Submit?
  }

  /** `after` holds a subset of the listings of `before`, each unchanged except perhaps its status. */
  predicate StatusOnlyChanges(before: Store, after: Store) {
    && after.Keys <= before.Keys
    && forall id :: id in after ==> after[id] == before[id].(status := after[id].status)
  }

  lemma HandleChangesStatusOnly(users: UserStore, verify: string -> Option<Claims>, store: Store, req: Request)
    requires !req.action.Submit?
    ensures StatusOnlyChanges(store, Handle(users, verify, store, req).store)
  {
  }

  /**
   * Without submissions, no request sequence adds a listing or changes anything but a
   * status: attributes, assets and owner are never touched by approval or rejection.
   */
  lemma {:induction false} RunChangesStatusOnly(users: UserStore, verify: string -> Option<Claims>, store: Store, reqs: seq<Request>)
    requires NoSubmissions(reqs)
    ensures StatusOnlyChanges(store, Run(users, verify, store, reqs))
    decreases |reqs|
  {
    if |reqs| > 0 {
      var next := Handle(users, verify, store, reqs[0]).store;
      HandleChangesStatusOnly(users, verify, store, reqs[0]);
      assert NoSubmissions(reqs[1..]) by {
        forall i | 0 <= i < |reqs[1..]|
          ensures !reqs[1..][i].action.Submit?
        {
          assert reqs[1..][i] == reqs[i + 1];
        }
      }
      RunChangesStatusOnly(users, verify, next, reqs[1..]);
    }
  }

  /**
   * The property-route pipeline: a submitted listing, approved by an admin, verified by an
   * agent and finally approved by an admin, is in the buyers' catalogue and no longer in
   * the admin's pending queue, with its submitted data intact.
   */
  lemma PipelineReachesCatalogue(seller: User, admin: User, agent: User, form: ListingForm,
                                 files: Files, newId: ObjectId, store: Store)
    requires seller.role == SellerRole && admin.role == AdminRole && agent.role == AgentRole
    requires Complete(form)
    requires PropertyRoutes.UploadAccepted(Some(files)) && "images" in files && "documents" in files
    requires newId !in store
    ensures var s1 := PropertyRoutes.Submit(seller, form, Some(files), newId, store).store;
            var s2 := PropertyRoutes.Approve(admin, newId, s1).store;
            var s3 := PropertyRoutes.Verify(agent, newId, s2).store;
            var s4 := PropertyRoutes.FinalApprove(admin, newId, s3).store;
            && newId in BuyerRoutes.Catalogue(s4).body.found
            && newId !in PropertyRoutes.Pending(admin, s4).body.found
            && s4[newId] == s1[newId].(status := Some(Listed))
  {
  }

  /**
   * The admin-route path strands a listing: approved through /api/admin and then by an
   * agent, it ends in "final_approval", which no queue (admin pending, agent verification,
   * agent pending, buyer catalogue) ever selects.
   */
  lemma AdminPathStrands(seller: User, admin: User, agent: User, form: ListingForm,
                         files: Files, newId: ObjectId, store: Store)
    requires seller.role == SellerRole && admin.role == AdminRole && agent.role == AgentRole
    requires Complete(form)
    requires PropertyRoutes.UploadAccepted(Some(files)) && "images" in files && "documents" in files
    requires newId !in store
    ensures var s1 := PropertyRoutes.Submit(seller, form, Some(files), newId, store).store;
            var s2 := AdminRoutes.Approve(admin, newId, s1).store;
            var s3 := AgentController.Approve(newId, s2).store;
            && s3[newId].status == Some(FinalApproval)
            && newId !in PropertyRoutes.Pending(admin, s3).body.found
            && newId !in PropertyRoutes.AgentQueue(agent, s3).body.found
            && newId !in AgentController.PendingForAgent(s3).body.found
            && newId !in BuyerRoutes.Catalogue(s3).body.found
  {
  }

  /**
   * Rejection undoes a submission: rejecting the id a submission was given restores the
   * store, whether the submission succeeded or not.
   */
  lemma RejectUndoesSubmit(seller: User, admin: User, form: ListingForm, files: Option<Files>,
                           newId: ObjectId, store: Store)
    requires admin.role == AdminRole
    requires newId !in store
    ensures AdminRoutes.Reject(admin, newId, PropertyRoutes.Submit(seller, form, files, newId, store).store).store == store
  {
  }
}

=== FILE: wrappers.dfy ===
/** Optional values, for lookups that may find nothing. */
module Wrappers {

  datatype Option<+T> = None | Some(value: T)
}
